=== FILE: README.md ===
# Cassata editor prototypes — a Dafny model of their shared routines

The repository holds five near-identical Kivy editor prototypes (`tab.py`,
`hello.py`, `fps.py`, `perf.py`, `fast.py`). Apart from widget wiring, each
carries its own copy of a few small routines: the hex colour decoder
`hex_to_rgb`, `get_brightness` and the white-or-black choice of
`update_text_color`, the configuration poller `check_config_update`, the
character counter, and per-file gates (the FPS overlay of `fps.py`, the
visibility rule of `perf.py`, the `last_bg_color` gate of `fast.py`).

This project writes those routines once, in shared modules, and keeps
per-file modules only where the copies differ:

- `results.dfy` — `Results`: `Option` and `Result` (an `Err` is an exception that escapes).
- `colour.dfy` — `Colour`: `lstrip('#')`, hex digits, `hex_to_rgb` with integer channels,
  the division by 255, brightness in exact reals, the text colour choice.
- `settings.dfy` — `Settings`: configparser `get` / `getboolean` with fallbacks on an
  abstract `[Settings]` section, and the default file.
- `poll.dfy` — `Poll`: the modification-time state machine and its behaviour over a sequence of ticks.
- `counter.dfy` — `Counter`: the "Characters: N" label and its decimal digits.
- `editor.dfy` — `Editor`: the widget state the prototypes recolour, and `update_colors`,
  `update_text_color`, `load_config`, `check_config_update`, `update_char_count` as
  `tab.py`, `hello.py` and `fps.py` share them (`withCounter` says whether the counter label
  is recoloured: yes in `tab.py` and `fps.py`, no in `hello.py`).
- `tab.dfy`, `hello.dfy`, `fps.dfy`, `perf.dfy`, `fast.dfy` — what each file does differently.

Widgets are not modelled as objects: recolouring and visibility are values in an
immutable `View`, and every operation returns the new application state.
Modification times, configuration contents and frame rates are parameters.

## Model

| member | source | states |
|---|---|---|
| Colour.StripHashes | tab.py:164 | every leading '#' is removed and nothing else: the input is some run of '#' followed by the result, which does not start with '#' |
| Colour.HashPrefixIgnored | tab.py:164 | any number of extra leading '#' leaves the decoded colour unchanged |
| Colour.StripHashesAfterHashes | tab.py:164 | stripping after a run of '#' gives the same as stripping the rest |
| Colour.ParseHex | tab.py:173 | `int(s, 16)` on hex digits: succeeds exactly on non-empty all-hex-digit strings, below 16^len; a pair gives 16·hi + lo |
| Colour.PairValue | tab.py:173 | a two-digit hex string denotes 16 times its first digit plus its second |
| Colour.Channels | tab.py:173 | the three channel strings convert exactly when all are hex digits; each channel is in 0..255 |
| Colour.HexToRgb | tab.py:162-173 | after stripping, a length other than 6 or 3 is "Invalid hex color format"; otherwise success exactly when every character is a hex digit; channels in 0..255 |
| Colour.LongFormChannels | tab.py:165-166 | in the 6-digit form channel i is the value of the pair at 2i, 2i+1 |
| Colour.ShorthandIsDoubled | tab.py:167-168 | "abc" decodes exactly as "aabbcc", each channel 17 times its digit |
| Colour.EncodeDecode | tab.py:162-173 | "#" followed by the six hex digits of any in-range colour decodes back to that colour |
| Colour.Components | tab.py:173 | each returned component is channel/255, in [0, 1] for decoded channels |
| Colour.Brightness | tab.py:141-146 | the 0.299/0.587/0.114 weighted sum lies in [0, 1]; white gives 1 and black 0 |
| Colour.PickTextColour | tab.py:134-139 | white text exactly when 299r + 587g + 114b < 127500, the integer form of brightness < 0.5 |
| Colour.TextColourFor | tab.py:131-134 | the chosen colour is white exactly when the decoded background's brightness is below 0.5; a bad colour raises the decoder's error |
| Colour.WhiteSelectsBlack | hello.py:92 | the default "#FFFFFF" decodes to (255, 255, 255) and selects black text |
| Settings.Get | tab.py:108 | a present option is returned as is; a missing one gives the fallback |
| Settings.ParseBoolean | fps.py:138 | the words 1/yes/true/on read as true and 0/no/false/off as false, ignoring letter case |
| Settings.GetBoolean | fps.py:138 | the fallback covers only a missing option; a present non-boolean word raises |
| Settings.GetBooleanIgnoresCase | fps.py:138 | a word parses exactly as its lower-cased form, so `getboolean` succeeds on both or neither with the same value, and "TRUE" reads as true; only the reported word keeps its spelling |
| Settings.DefaultSection | fps.py:125-132 | the default file gives a white background and, in fps.py, debug mode off whatever the fallback |
| Settings.StartSection | tab.py:20-25 | `on_start` reads the existing file, or the freshly written default with a white background |
| Poll.Check | tab.py:148-160 | the first tick never reloads; later ticks reload exactly when the time is strictly newer; the tick's time is recorded |
| Poll.CheckCombined | fps.py:162-168 | the single combined condition decides exactly as the nested form |
| Poll.Reloads | tab.py:153-160 | running `Check` tick by tick, each feeding its recorded time to the next, gives one reload decision per tick |
| Poll.Recorded | tab.py:159-160 | running `Check` tick by tick, the record after any non-empty sequence is the last time read, and an empty one keeps the initial record |
| Poll.ReloadsOnStrictIncrease | tab.py:153-157 | in any sequence of ticks, tick i reloads exactly when its time is strictly newer than tick i-1's (the first against the initial record) |
| Poll.UnchangedFileNeverReloads | tab.py:153-154 | from no record, times that never increase never cause a reload |
| Counter.Decimal | tab.py:89 | `str(n)`: at least one digit, a leading zero only in "0" itself, and the digits read back as n |
| Counter.DecimalUnique | tab.py:89 | every canonical digit string that reads n is exactly `str(n)` |
| Counter.CounterText | tab.py:86-89 | the label is "Characters: " followed by the canonical decimal of the text length |
| Counter.ReadsExactly | tab.py:86-89 | a caption reads the text length exactly when it is the caption `update_char_count` writes |
| Counter.PlaceholderShowsZero | tab.py:60 | the placeholder "Characters: 0" is exactly the caption written for the empty text |
| Editor.Decode | tab.py:117 | the background decodes exactly when `hex_to_rgb` succeeds, its error becoming a fault |
| Editor.UpdateCharCount | tab.py:86-89 | the text input holds the new text, the label shows its length, no colour changes |
| Editor.LoadConfig | tab.py:102-108 | the background is the file's option, or "#FFFFFF" when it is missing; nothing else changes |
| Editor.UpdateTextColor | tab.py:129-139 | white iff brightness < 0.5, black otherwise; the counter label gets the same colour in tab.py/fps.py and is untouched in hello.py; backgrounds and text unchanged |
| Editor.UpdateColors | tab.py:110-127 | no effect before `root` is set; afterwards both backgrounds and the text colour show the loaded background, text and counter text untouched |
| Editor.CheckConfigUpdate | tab.py:148-160 | no reload on the first tick or on a time not strictly newer (only the record changes); a reload loads the file's background and keeps the view in sync; the tick raises exactly when it reloads with the widgets built and the loaded background does not decode, and otherwise records the tick's time |
| Editor.EditText | tab.py:66 | once the widgets exist an edit leaves the new text in the input and rewrites an existing counter to read its length; backgrounds, text colour and counter colour are unchanged, and the view stays in sync with the background |
| Editor.RunKeepsViewInSync | tab.py:110-160 | across any interleaving of ticks and edits the view keeps showing the loaded background |
| Tab.Build | tab.py:34-79 | the built view shows the background with both text colours equal; the counter is still "Characters: 0" while the text is "Hello world" |
| Hello.Build | hello.py:36-76 | the built view shows the background; there is no counter label |
| Hello.MissingKeySelectsBlack | hello.py:99-105 | a file without `background_color` loads "#FFFFFF", which decodes to full channels and selects black text |
| Fps.LoadConfig | fps.py:134-138 | debug mode is off when the option is missing; a non-boolean value raises; the background loads as elsewhere |
| Fps.OnStart | fps.py:17-33 | the FPS timer is scheduled only in debug mode; an existing file's `debug_mode` and background are what is loaded, and a bad `debug_mode` raises; with no file, the default gives white and debug off |
| Fps.Build | fps.py:39-103 | the FPS label's anchor is laid out exactly when debug mode is on; the view shows the loaded background, which is kept along with the record |
| Fps.CheckConfigUpdate | fps.py:162-168 | the combined condition reloads as the nested form does; a reload rereads `debug_mode` and the background, raising exactly when `debug_mode` is not a boolean or the widgets exist and the background does not decode; the text and counter caption are kept; the FPS overlay is never laid out or scheduled |
| Fps.OverlayFixedAfterStart | fps.py:134-168 | however later files set `debug_mode`, the overlay's layout and timer stay as build and start left them |
| Perf.Init | perf.py:24-29 | defaults are a white background, debug and performance off, which selects black text |
| Perf.ScaleAll | perf.py:153 | the generator yields one component per channel string |
| Perf.ScaleThree | perf.py:153 | the generator over three channel strings gives the explicit form's components |
| Perf.HexToComponents | perf.py:145-153 | the generator form succeeds, fails and returns exactly as the explicit decoder divided by 255 |
| Perf.Build | perf.py:46-91 | both backgrounds show the loaded colour, the text colours keep the toolkit default, the counter reads its placeholder, everything is opaque |
| Perf.SetVisibility | perf.py:115-118 | the text input and the bottom bar get the same opacity: 1 when visible, 0 otherwise |
| Perf.UpdateFps | perf.py:105-113 | below 10 fps outside performance mode hides, 10 or more shows, below 10 in performance mode changes nothing |
| Perf.VisibilityStaysUniform | perf.py:115-118 | over any sequence of readings the text input and the bottom bar are equally visible |
| Perf.PerformanceModeNeverHides | perf.py:110-113 | in performance mode visible content stays visible whatever the frame rates |
| Perf.LastReadingDecides | perf.py:109-113 | outside performance mode visibility after a sequence of readings depends only on the last one |
| Perf.UpdateColors | perf.py:131-136 | both backgrounds take the loaded colour; text, text colours, counter, opacities and settings unchanged |
| Perf.UpdateTextColor | perf.py:138-143 | the single chosen colour gives the same view as the two-branch form and both widgets the same colour; opacities and settings unchanged |
| Perf.Reload | perf.py:120-128 | one reading pass loads the three settings with their fallbacks (debug and performance mode are exactly what `getboolean` reads) and leaves the view showing the loaded background at the same opacity, with text and caption kept and the counter in the text input's colour; it succeeds exactly when both booleans read and the background decodes |
| Perf.UpdateCharCount | perf.py:101-103 | the label reads the new text's length; both opacities, every colour and the settings unchanged |
| Fast.Apply | fast.py:76-82 | repaint and recolour the text input, then record the colour; the view then shows it, and the text is kept |
| Fast.UpdateColorsAsWritten | fast.py:69-82 | no effect without `root` or without a recorded colour; it changes something only when a recorded colour differs |
| Fast.UpdateColors | fast.py:69-82 | with the gate corrected, once `root` is set: an unchanged background does nothing, a changed or first one leaves the view showing it and the record holding it; the text is kept |
| Fast.BuildAsWritten | fast.py:27-48 | from no recorded colour, the built view has the background painted but no text colour chosen and still no colour recorded |
| Fast.Build | fast.py:27-48 | from no recorded colour, with the corrected gate the built view shows the loaded background, text colour included, and keeps that background and the record |
| Fast.CheckConfigUpdateAsWritten | fast.py:95-101 | with no colour recorded a tick never repaints, records or raises |
| Fast.CheckConfigUpdate | fast.py:95-101 | the poller rule as in tab.py, recolouring through the corrected gate, keeping the view current and the text; it raises exactly when it reloads a changed background that does not decode with the widgets built |
| Fast.GateNeverFires | fast.py:75-82 | as written, from no recorded colour, no sequence of ticks ever repaints, records a colour or raises |
| Fast.StaleBackgroundExample | fast.py:75-82 | as written, built on white then reloaded with black, the view still shows white |
| Fast.RunKeepsViewCurrent | fast.py:95-101 | with the corrected gate, after any sequence of ticks the view shows the loaded background |

## Left out

- `folder_view.py`: a directory walk on fire-and-forget threads and a process pool; it is I/O and concurrency with no pure logic.
- Widget construction and binding (`build`'s layout details, `_update_rect`, `_update_border_rect`, `_update_fps_label_position`, `ask_update`, titles and icons): recolouring and visibility are values in `View`. Each repaint in the source adds another `Color`/`Rectangle` pair to the canvas; the model keeps only the colour drawn last.
- The toolkit's call order (`load_config`, `build`, `on_start`, clock callbacks) and its scheduling: each operation is a function, and sequences of them are runs over explicit events.
- Whether the toolkit's `App` already defines `root` before `build`: the `hasattr` guard is modelled as written, with `root` absent until `build` sets it.
- File and library calls: reading and writing the configuration file, `os.path.exists` (an `Option` of the section) and `os.path.getmtime` (an integer parameter). A `getmtime` that raises because the file was deleted between ticks is dropped with the call. Option names are assumed already lower-cased as configparser stores them; configparser interpolation is not modelled.
- Profiling (`cProfile` in `on_start`/`on_stop`, including `fast.py`'s `on_stop` on a profile it never creates) and `Config.set` graphics settings in `perf.py`.
- `perf.py`'s background thread: the `while not self.stop_threads` loop, `@mainthread` and `Clock.schedule_once`. One pass of the loop body is `Perf.Reload`.
- The FPS label's text `f"FPS: {fps:.1f}"` (`fps.py`, `perf.py`): floating-point formatting; `Clock.get_rfps()` is a real parameter.
- `hello.py`'s `update_label`: it only prints an empty line.
- Colour.ParseHex: accepts only ASCII hex digits; Python's `int(s, 16)` also accepts a sign, surrounding whitespace and non-ASCII decimal digits, so `"#-F-F-F"` decodes there to negative channels. A doubled sign or space in the shorthand is rejected by both.
- Colour.Brightness: exact real arithmetic instead of IEEE doubles; the two can disagree only when 299r + 587g + 114b is exactly 127500.
- Settings.ParseBoolean: lower-cases ASCII letters only, where Python's `str.lower` covers all of Unicode.
- Editor.CheckConfigUpdate: an `Err` result drops the state the source had already changed before raising (the reloaded `bg_color`); the source does not record the tick's time in that case either. The same holds for the other ticks, `Fps.LoadConfig` and `Perf.Reload`.
- Print statements ("Config file updated!") are not modelled.

## Findings

| source | as written | input that shows it | evidently intended | confidence | as-written member | corrected member |
|---|---|---|---|---|---|---|
| fast.py:75-82 | the recolour gate needs an existing `last_bg_color` that differs from `bg_color`, and `last_bg_color` is assigned only inside the gate, so it is never assigned | build on "#FFFFFF", then a tick that reloads a file with `background_color = #000000`: the view stays white and the text colour is never chosen | recolour when no colour is recorded yet or the recorded one differs | high; not executed | Fast.UpdateColorsAsWritten, Fast.GateNeverFires, Fast.StaleBackgroundExample | Fast.UpdateColors, Fast.RunKeepsViewCurrent |

The `Fast` ticks (`Fast.CheckConfigUpdate`, `Fast.Build`, `Fast.Run`) use the corrected gate.

=== FILE: colour.dfy ===
/**
 * The colour routines every editor prototype carries a copy of: `hex_to_rgb`,
 * `get_brightness` and the white-or-black decision of `update_text_color`.
 * Channels are kept as the integers the hex digits name; the source's
 * division by 255 is `Components`, and brightness is computed in exact reals.
 */
module Colour {
  import opened Results

  /** The three channels named by a hex colour string, before division by 255. */
  datatype Rgb = Rgb(r: int, g: int, b: int)

  predicate InRange(c: Rgb) {
    0 <= c.r <= 255 && 0 <= c.g <= 255 && 0 <= c.b <= 255
  }

  /** The two ways `hex_to_rgb` raises `ValueError`. */
  datatype HexError =
    | InvalidFormat  // "Invalid hex color format": neither 6 nor 3 characters after stripping
    | InvalidDigit   // `int(_, 16)` rejected one of the channel strings

  /** The text colour `update_text_color` chooses: (1, 1, 1, 1) or (0, 0, 0, 1). */
  datatype TextColour = White | Black

  /** A run of `n` '#' characters. */
  function Hashes(n: nat): (s: string)
    ensures |s| == n && forall i :: 0 <= i < n ==> s[i] == '#'
  {
    if n == 0 then [] else ['#'] + Hashes(n - 1)
  }

  /**
   * `str.lstrip('#')`: every leading '#' goes, not only the first, and
   * nothing else is removed.
   */
  function StripHashes(s: string): (t: string)
    ensures |t| <= |s| && s == Hashes(|s| - |t|) + t
    ensures |t| == 0 || t[0] != '#'
    decreases |s|
  {
    if |s| > 0 && s[0] == '#' then
      var t := StripHashes(s[1..]);
      var k := |s| - 1 - |t|;
      assert s == ['#'] + s[1..] && s[1..] == Hashes(k) + t;
      assert Hashes(k + 1) == ['#'] + Hashes(k);
      assert s == (['#'] + Hashes(k)) + t;
      t
    else
      s
  }

  predicate IsHexDigit(c: char) {
    '0' <= c <= '9' || 'a' <= c <= 'f' || 'A' <= c <= 'F'
  }

  predicate AllHexDigits(s: string) {
    forall i :: 0 <= i < |s| ==> IsHexDigit(s[i])
  }

  function DigitValue(c: char): (v: nat)
    requires IsHexDigit(c)
    ensures v < 16
  {
    if '0' <= c <= '9' then c as int - '0' as int
    else if 'a' <= c <= 'f' then c as int - 'a' as int + 10
    else c as int - 'A' as int + 10
  }

  /** The lower-case digit for a value below 16; the inverse of `DigitValue`. */
  function DigitChar(v: nat): (c: char)
    requires v < 16
    ensures IsHexDigit(c) && DigitValue(c) == v
    ensures c != '#'
  {
    if v < 10 then ('0' as int + v) as char else ('a' as int + v - 10) as char
  }

  function Pow16(n: nat): (p: nat)
    ensures p >= 1
  {
    if n == 0 then 1 else 16 * Pow16(n - 1)
  }

  /** The number a string of hex digits denotes, most significant digit first. */
  function HexValue(s: string): (v: nat)
    requires AllHexDigits(s)
    ensures v < Pow16(|s|)
    decreases |s|
  {
    if |s| == 0 then 0 else 16 * HexValue(s[..|s| - 1]) + DigitValue(s[|s| - 1])
  }

  /** A two-digit string is its high digit times 16 plus its low digit. */
  lemma PairValue(s: string)
    requires AllHexDigits(s)
    ensures |s| == 2 ==> HexValue(s) == 16 * DigitValue(s[0]) + DigitValue(s[1])
  {
    if |s| == 2 {
      var hi := s[..1];
      assert s[..|s| - 1] == hi && hi[..0] == [] && hi[0] == s[0];
      assert HexValue(hi) == DigitValue(s[0]);
    }
  }

  /**
   * `int(s, 16)` restricted to strings of hex digits: the empty string and any
   * other character raise.
   */
  function ParseHex(s: string): (r: Result<nat, HexError>)
    ensures r.Ok? <==> |s| > 0 && AllHexDigits(s)
    ensures r.Err? ==> r.error == InvalidDigit
    ensures r.Ok? ==> r.value < Pow16(|s|)
    ensures |s| == 2 && r.Ok? ==> r.value == 16 * DigitValue(s[0]) + DigitValue(s[1])
  {
    if |s| > 0 && AllHexDigits(s) then
      PairValue(s);
      Ok(HexValue(s))
    else
      Err(InvalidDigit)
  }

  /** Parses the three channel strings in the order the source converts them. */
  function Channels(r: string, g: string, b: string): (c: Result<Rgb, HexError>)
    requires |r| == |g| == |b| == 2
    ensures c.Ok? <==> AllHexDigits(r) && AllHexDigits(g) && AllHexDigits(b)
    ensures c.Err? ==> c.error == InvalidDigit
    ensures c.Ok? ==> InRange(c.value)
  {
    var red :- ParseHex(r);
    var green :- ParseHex(g);
    var blue :- ParseHex(b);
    Ok(Rgb(red, green, blue))
  }

  /** Six characters are all hex digits exactly when each of their three pairs is. */
  lemma SplitPairs(h: string)
    requires |h| == 6
    ensures AllHexDigits(h) <==> AllHexDigits(h[0..2]) && AllHexDigits(h[2..4]) && AllHexDigits(h[4..6])
  {
    if AllHexDigits(h[0..2]) && AllHexDigits(h[2..4]) && AllHexDigits(h[4..6]) {
      forall i | 0 <= i < 6 ensures IsHexDigit(h[i]) {
        if i < 2 { assert h[i] == h[0..2][i]; }
        else if i < 4 { assert h[i] == h[2..4][i - 2]; }
        else { assert h[i] == h[4..6][i - 4]; }
      }
    }
  }

  /** Three characters are all hex digits exactly when each doubled pair is. */
  lemma SplitShorthand(h: string)
    requires |h| == 3
    ensures AllHexDigits(h) <==> AllHexDigits([h[0], h[0]]) && AllHexDigits([h[1], h[1]]) && AllHexDigits([h[2], h[2]])
  {
    if AllHexDigits([h[0], h[0]]) && AllHexDigits([h[1], h[1]]) && AllHexDigits([h[2], h[2]]) {
      assert IsHexDigit([h[0], h[0]][0]) && IsHexDigit([h[1], h[1]][0]) && IsHexDigit([h[2], h[2]][0]);
    }
  }

  /** `hex_to_rgb`, with the channels left as integers. */
  function HexToRgb(colour: string): (r: Result<Rgb, HexError>)
    ensures var h := StripHashes(colour);
      && (r == Err(InvalidFormat) <==> |h| != 6 && |h| != 3)
      && (r.Ok? <==> (|h| == 6 || |h| == 3) && AllHexDigits(h))
      && (r.Ok? ==> InRange(r.value))
  {
    var h := StripHashes(colour);
    if |h| == 6 then
      SplitPairs(h);
      Channels(h[0..2], h[2..4], h[4..6])
    else if |h| == 3 then
      SplitShorthand(h);
      Channels([h[0], h[0]], [h[1], h[1]], [h[2], h[2]])
    else
      Err(InvalidFormat)
  }

  /** The six-digit form `Doubled(h)` that a three-digit shorthand stands for. */
  function Doubled(h: string): (d: string)
    requires |h| == 3
    ensures |d| == 6 && forall i :: 0 <= i < 6 ==> d[i] == h[i / 2]
  {
    [h[0], h[0], h[1], h[1], h[2], h[2]]
  }

  /** In the six-digit form channel i is the hex pair at positions 2i and 2i+1. */
  lemma LongFormChannels(colour: string)
    requires var h := StripHashes(colour); |h| == 6 && AllHexDigits(h)
    ensures var h := StripHashes(colour);
      HexToRgb(colour) == Ok(Rgb(16 * DigitValue(h[0]) + DigitValue(h[1]),
                                 16 * DigitValue(h[2]) + DigitValue(h[3]),
                                 16 * DigitValue(h[4]) + DigitValue(h[5])))
  {
    var h := StripHashes(colour);
    assert h[0..2][0] == h[0] && h[0..2][1] == h[1];
    assert h[2..4][0] == h[2] && h[2..4][1] == h[3];
    assert h[4..6][0] == h[4] && h[4..6][1] == h[5];
  }

  /** The shorthand "abc" decodes exactly as "aabbcc"; each channel is 17 times its digit. */
  lemma ShorthandIsDoubled(colour: string)
    requires |StripHashes(colour)| == 3
    ensures var h := StripHashes(colour);
      && HexToRgb(colour) == HexToRgb(Doubled(h))
      && (AllHexDigits(h) ==>
            HexToRgb(colour) == Ok(Rgb(17 * DigitValue(h[0]), 17 * DigitValue(h[1]), 17 * DigitValue(h[2]))))
  {
    var h := StripHashes(colour);
    var d := Doubled(h);
    assert StripHashes(d) == d;
    assert d[0..2] == [h[0], h[0]] && d[2..4] == [h[1], h[1]] && d[4..6] == [h[2], h[2]];
  }

  /** A prefix of '#' characters does not change the decoded colour. */
  lemma {:induction false} HashPrefixIgnored(colour: string, n: nat)
    ensures HexToRgb(Hashes(n) + colour) == HexToRgb(colour)
  {
    StripHashesAfterHashes(colour, n);
  }

  lemma {:induction false} StripHashesAfterHashes(colour: string, n: nat)
    ensures StripHashes(Hashes(n) + colour) == StripHashes(colour)
  {
    if n > 0 {
      assert (Hashes(n) + colour)[0] == '#';
      assert (Hashes(n) + colour)[1..] == Hashes(n - 1) + colour;
      StripHashesAfterHashes(colour, n - 1);
    } else {
      assert Hashes(n) + colour == colour;
    }
  }

  /** The six lower-case hex digits of an in-range colour. */
  function ToHex(c: Rgb): (s: string)
    requires InRange(c)
    ensures |s| == 6 && AllHexDigits(s)
  {
    [DigitChar(c.r / 16), DigitChar(c.r % 16),
     DigitChar(c.g / 16), DigitChar(c.g % 16),
     DigitChar(c.b / 16), DigitChar(c.b % 16)]
  }

  /** Decoding "#" followed by the six digits of a colour gives that colour back. */
  lemma EncodeDecode(c: Rgb)
    requires InRange(c)
    ensures HexToRgb("#" + ToHex(c)) == Ok(c)
  {
    var s := "#" + ToHex(c);
    assert s[1..] == ToHex(c);
    assert StripHashes(s) == ToHex(c);
    LongFormChannels(s);
  }

  /** The channels divided by 255, as `hex_to_rgb` returns them. */
  function Components(c: Rgb): (k: (real, real, real))
    ensures InRange(c) ==> 0.0 <= k.0 <= 1.0 && 0.0 <= k.1 <= 1.0 && 0.0 <= k.2 <= 1.0
    ensures k.0 * 255.0 == c.r as real && k.1 * 255.0 == c.g as real && k.2 * 255.0 == c.b as real
  {
    (c.r as real / 255.0, c.g as real / 255.0, c.b as real / 255.0)
  }

  /** `get_brightness` on decoded channels: the weights sum to 1, so it lies in [0, 1]. */
  function Brightness(c: Rgb): (y: real)
    ensures InRange(c) ==> 0.0 <= y <= 1.0
    ensures c == Rgb(255, 255, 255) ==> y == 1.0
    ensures c == Rgb(0, 0, 0) ==> y == 0.0
  {
    var k := Components(c);
    k.0 * 0.299 + k.1 * 0.587 + k.2 * 0.114
  }

  /**
   * White text when the background's brightness is below one half; over the
   * integer channels that is exactly 299r + 587g + 114b < 127500.
   */
  function PickTextColour(c: Rgb): (t: TextColour)
    ensures t == White <==> 299 * c.r + 587 * c.g + 114 * c.b < 127500
  {
    if Brightness(c) < 0.5 then White else Black
  }

  /** `get_brightness` followed by the comparison: the text colour a background string selects. */
  function TextColourFor(bg: string): (r: Result<TextColour, HexError>)
    ensures r.Ok? <==> HexToRgb(bg).Ok?
    ensures r.Ok? ==> (r.value == White <==> Brightness(HexToRgb(bg).value) < 0.5)
    ensures r.Err? ==> r.error == HexToRgb(bg).error
  {
    var c :- HexToRgb(bg);
    Ok(PickTextColour(c))
  }

  /** "FF" is the full channel. */
  lemma FullChannel()
    ensures ParseHex("FF") == Ok(255)
  {
    var s := "FF";
    assert s[..1] == "F" && "F"[..0] == [];
    assert HexValue("F") == 15;
  }

  /** The default background "#FFFFFF" decodes to full channels and selects black text. */
  lemma WhiteSelectsBlack()
    ensures HexToRgb("#FFFFFF") == Ok(Rgb(255, 255, 255))
    ensures TextColourFor("#FFFFFF") == Ok(Black)
  {
    var s, h := "#FFFFFF", "FFFFFF";
    assert StripHashes(h) == h;
    assert s[0] == '#' && s[1..] == h;
    assert StripHashes(s) == h;
    assert h[0..2] == "FF" && h[2..4] == "FF" && h[4..6] == "FF";
    FullChannel();
    assert Channels("FF", "FF", "FF") == Ok(Rgb(255, 255, 255));
    assert PickTextColour(Rgb(255, 255, 255)) == Black;
  }
}

=== FILE: counter.dfy ===
/** The character counter label: "Characters: " followed by the text length in decimal. */
module Counter {

  const Prefix := "Characters: "

  predicate IsDecimalDigit(c: char) {
    '0' <= c <= '9'
  }

  predicate AllDecimalDigits(s: string) {
    forall i :: 0 <= i < |s| ==> IsDecimalDigit(s[i])
  }

  /** The number a string of decimal digits denotes. */
  function DecimalValue(s: string): nat
    requires AllDecimalDigits(s)
    decreases |s|
  {
    if |s| == 0 then 0 else 10 * DecimalValue(s[..|s| - 1]) + (s[|s| - 1] as int - '0' as int)
  }

  /** The form `str(n)` takes: at least one digit, and a leading zero only in "0" itself. */
  predicate Canonical(s: string) {
    |s| >= 1 && AllDecimalDigits(s) && (s[0] == '0' ==> s == "0")
  }

  /** Python's `str(n)` for a natural number: no sign, no leading zero. */
  function Decimal(n: nat): (s: string)
    ensures Canonical(s)
    ensures DecimalValue(s) == n
    decreases n
  {
    if n < 10 then
      [('0' as int + n) as char]
    else
      var front := Decimal(n / 10);
      var s := front + [('0' as int + n % 10) as char];
      assert s[..|s| - 1] == front;
      s
  }

  /** A digit string that does not start with '0' denotes a positive number. */
  lemma {:induction false} LeadingDigitPositive(s: string)
    requires |s| >= 1 && AllDecimalDigits(s) && s[0] != '0'
    ensures DecimalValue(s) >= 1
    decreases |s|
  {
    if |s| > 1 {
      LeadingDigitPositive(s[..|s| - 1]);
    }
  }

  /** `str(n)` is the only canonical spelling of `n`. */
  lemma {:induction false} DecimalUnique(s: string, n: nat)
    requires Canonical(s) && DecimalValue(s) == n
    ensures s == Decimal(n)
    decreases n
  {
    if |s| == 1 {
      assert s == [s[0]];
    } else {
      var front := s[..|s| - 1];
      assert s[0] != '0';
      assert front[0] == s[0];
      LeadingDigitPositive(front);
      assert n >= 10;
      assert n / 10 == DecimalValue(front) && n % 10 == s[|s| - 1] as int - '0' as int;
      DecimalUnique(front, n / 10);
      assert s == front + [s[|s| - 1]];
    }
  }

  /** Whether `caption` reads the prefix followed by `str(n)`. */
  predicate Reads(caption: string, n: nat) {
    |caption| > |Prefix| && caption[..|Prefix|] == Prefix
    && Canonical(caption[|Prefix|..]) && DecimalValue(caption[|Prefix|..]) == n
  }

  /** The text `update_char_count` writes for the current text. */
  function CounterText(text: string): (caption: string)
    ensures Reads(caption, |text|)
  {
    var digits := Decimal(|text|);
    var caption := Prefix + digits;
    assert caption[|Prefix|..] == digits;
    caption
  }

  /** A caption reads the length of `text` exactly when it is the one `update_char_count` writes. */
  lemma ReadsExactly(caption: string, text: string)
    ensures Reads(caption, |text|) <==> caption == CounterText(text)
  {
    if Reads(caption, |text|) {
      DecimalUnique(caption[|Prefix|..], |text|);
      assert caption == caption[..|Prefix|] + caption[|Prefix|..];
    }
  }

  /** The placeholder the label shows before the first edit is the caption for the empty text. */
  lemma PlaceholderShowsZero()
    ensures CounterText("") == "Characters: 0"
    ensures Reads("Characters: 0", 0)
  {
    assert Decimal(0) == "0";
  }
}

=== FILE: editor.dfy ===
/**
 * The part of the widget tree the prototypes recolour, shared by all five:
 * the canvas rectangle behind the layout, the text input, and (in tab.py,
 * fps.py and perf.py) the character counter label under it.
 */
module Editor {
  import opened Results
  import opened Colour
  import Settings
  import Counter
  import Poll

  /** An exception that escapes an operation. */
  datatype Fault =
    | BadColour(colourError: HexError)                     // from `hex_to_rgb`
    | BadSetting(settingError: Settings.SettingsError)     // from `getboolean`

  /** The counter label: its text and its colour; `None` is the toolkit's default colour. */
  datatype CounterLabel = CounterLabel(text: string, colour: Option<TextColour>)

  /**
   * The widgets the model keeps. `background` is the colour of the canvas
   * rectangle drawn last behind the layout; `inputForeground` is `None` while
   * the text input keeps the toolkit's default text colour.
   */
  datatype View = View(
    background: Rgb,
    inputBackground: Rgb,
    inputForeground: Option<TextColour>,
    text: string,
    counter: Option<CounterLabel>)

  const InitialText := "Hello world"
  const InitialCounter := CounterLabel("Characters: 0", None)

  /** `hex_to_rgb` on the background string, its `ValueError` becoming a fault. */
  function Decode(bg: string): (r: Result<Rgb, Fault>)
    ensures r.Ok? <==> HexToRgb(bg).Ok?
    ensures r.Ok? ==> r.value == HexToRgb(bg).value && InRange(r.value)
    ensures r.Err? ==> r.error == BadColour(HexToRgb(bg).error)
  {
    match HexToRgb(bg)
    case Ok(c) => Ok(c)
    case Err(e) => Err(BadColour(e))
  }

  /** The widgets as `build` creates them, painted with the decoded background. */
  function NewView(c: Rgb, withCounter: bool): View {
    View(c, c, None, InitialText, if withCounter then Some(InitialCounter) else None)
  }

  /** The canvas rectangle and the text input's background both take the colour. */
  function Paint(v: View, c: Rgb): View {
    v.(background := c, inputBackground := c)
  }

  /** Sets the text input's foreground and, when `withCounter`, the counter label's colour. */
  function SetTextColour(v: View, t: TextColour, withCounter: bool): View {
    var w := v.(inputForeground := Some(t));
    if withCounter && v.counter.Some? then w.(counter := Some(v.counter.value.(colour := Some(t)))) else w
  }

  /**
   * The view shows the background `bg`: it decodes, both backgrounds are its
   * colour, and the text input's foreground is the colour it selects.
   */
  predicate Shows(v: View, bg: string) {
    && HexToRgb(bg).Ok?
    && v.background == HexToRgb(bg).value
    && v.inputBackground == HexToRgb(bg).value
    && v.inputForeground == Some(PickTextColour(HexToRgb(bg).value))
  }

  /** The counter label exists and has the text input's foreground colour. */
  predicate CounterMatches(v: View) {
    v.counter.Some? && v.counter.value.colour == v.inputForeground
  }

  /** Everything but the colours: what recolouring must leave alone. */
  predicate SameContent(v: View, w: View) {
    v.text == w.text && (v.counter.Some? <==> w.counter.Some?)
    && (v.counter.Some? ==> v.counter.value.text == w.counter.value.text)
  }

  /**
   * `update_char_count`: the text input now holds `value` and the label reads
   * "Characters: " and its length; no colour changes.
   */
  function UpdateCharCount(v: View, value: string): (w: View)
    requires v.counter.Some?
    ensures w.text == value && w.counter.Some? && Counter.Reads(w.counter.value.text, |value|)
    ensures w.background == v.background && w.inputBackground == v.inputBackground
    ensures w.inputForeground == v.inputForeground && w.counter.value.colour == v.counter.value.colour
  {
    v.(text := value, counter := Some(v.counter.value.(text := Counter.CounterText(value))))
  }

  /**
   * The application object of the editor prototypes: the background string
   * last loaded, the widget tree once `build` has set `root`, and
   * `last_checked_time` once a tick has recorded one.
   */
  datatype App = App(bg: string, root: Option<View>, lastChecked: Option<int>)

  /** A tick of the configuration poller, or an edit of the text. */
  datatype Event = Tick(mtime: int, file: Settings.Section) | Edit(value: string)

  /**
   * The view shows the loaded background; `withCounter` asks for a counter
   * label in the same text colour as the text input.
   */
  predicate Consistent(app: App, withCounter: bool) {
    app.root.Some? ==>
      Shows(app.root.value, app.bg) && (withCounter ==> CounterMatches(app.root.value))
  }

  /** `load_config`: a missing option falls back to white. */
  function LoadConfig(app: App, file: Settings.Section): (a: App)
    ensures a.root == app.root && a.lastChecked == app.lastChecked
    ensures Settings.BackgroundKey in file ==> a.bg == file[Settings.BackgroundKey]
    ensures Settings.BackgroundKey !in file ==> a.bg == "#FFFFFF"
  {
    app.(bg := Settings.Get(file, Settings.BackgroundKey, Settings.DefaultBackground))
  }

  /**
   * `update_text_color`: white text on a background darker than one half,
   * black otherwise. With `withCounter` (tab.py, fps.py) the counter label
   * gets the same colour; without it (hello.py, fast.py) only the text input.
   */
  function UpdateTextColor(v: View, bg: string, withCounter: bool): (r: Result<View, Fault>)
    ensures r.Ok? <==> HexToRgb(bg).Ok?
    ensures r.Err? ==> r.error == BadColour(HexToRgb(bg).error)
    ensures r.Ok? ==> r.value.inputForeground == Some(PickTextColour(HexToRgb(bg).value))
    ensures r.Ok? ==> (r.value.inputForeground == Some(White) <==> Brightness(HexToRgb(bg).value) < 0.5)
    ensures r.Ok? && withCounter && v.counter.Some? ==> CounterMatches(r.value)
    ensures r.Ok? && !withCounter ==> r.value.counter == v.counter
    ensures r.Ok? ==> (SameContent(v, r.value)
      && r.value.background == v.background && r.value.inputBackground == v.inputBackground)
  {
    var c :- Decode(bg);
    if Brightness(c) < 0.5 then
      Ok(SetTextColour(v, White, withCounter))
    else
      Ok(SetTextColour(v, Black, withCounter))
  }

  /** `update_colors`: nothing before `root` is set; afterwards the view shows `bg`. */
  function UpdateColors(app: App, withCounter: bool): (r: Result<App, Fault>)
    ensures app.root.None? ==> r == Ok(app)
    ensures app.root.Some? ==> (r.Ok? <==> HexToRgb(app.bg).Ok?)
    ensures r.Err? ==> r.error == BadColour(HexToRgb(app.bg).error)
    ensures r.Ok? ==> r.value.bg == app.bg && r.value.lastChecked == app.lastChecked
    ensures r.Ok? && app.root.Some? ==> r.value.root.Some? && SameContent(app.root.value, r.value.root.value)
    ensures r.Ok? && app.root.Some? && !withCounter ==> r.value.root.value.counter == app.root.value.counter
    ensures r.Ok? && (withCounter && app.root.Some? ==> app.root.value.counter.Some?) ==>
      Consistent(r.value, withCounter)
  {
    match app.root
    case None => Ok(app)
    case Some(v) =>
      var c :- Decode(app.bg);
      // `bg` has just decoded, so the `Err` case below is never taken.
      match UpdateTextColor(Paint(v, c), app.bg, withCounter)
      case Ok(w) => Ok(app.(root := Some(w)))
      case Err(e) => Err(e)
  }

  /**
   * `check_config_update`: reload and recolour only when a time is on record
   * and the file's is strictly newer; record the time unless recolouring raised.
   */
  function CheckConfigUpdate(app: App, mtime: int, file: Settings.Section, withCounter: bool): (r: Result<App, Fault>)
    ensures r.Ok? ==> r.value.lastChecked == Some(mtime)
    ensures !(app.lastChecked.Some? && mtime > app.lastChecked.value) ==>
      r == Ok(app.(lastChecked := Some(mtime)))
    ensures app.lastChecked.Some? && mtime > app.lastChecked.value && r.Ok? ==>
      r.value.bg == Settings.Get(file, Settings.BackgroundKey, Settings.DefaultBackground)
    ensures r.Err? <==> (app.lastChecked.Some? && mtime > app.lastChecked.value && app.root.Some?
      && HexToRgb(Settings.Get(file, Settings.BackgroundKey, Settings.DefaultBackground)).Err?)
    ensures r.Err? ==>
      r.error == BadColour(HexToRgb(Settings.Get(file, Settings.BackgroundKey, Settings.DefaultBackground)).error)
    ensures Consistent(app, withCounter) && r.Ok? ==> Consistent(r.value, withCounter)
    ensures r.Ok? && app.root.Some? ==> r.value.root.Some? && SameContent(app.root.value, r.value.root.value)
  {
    var tick := Poll.Check(app.lastChecked, mtime);
    if tick.reload then
      var updated :- UpdateColors(LoadConfig(app, file), withCounter);
      Ok(updated.(lastChecked := Some(tick.recorded)))
    else
      Ok(app.(lastChecked := Some(tick.recorded)))
  }

  /**
   * Typing into the text input: once the widgets exist the input holds
   * `value`, and where there is a label `update_char_count` also rewrites it.
   */
  function EditText(app: App, value: string): (a: App)
    ensures a.bg == app.bg && a.lastChecked == app.lastChecked
    ensures a.root.Some? <==> app.root.Some?
    ensures forall withCounter :: Consistent(app, withCounter) ==> Consistent(a, withCounter)
    ensures app.root.Some? ==>
      (a.root.value.text == value && (a.root.value.counter.Some? <==> app.root.value.counter.Some?))
    ensures app.root.Some? && app.root.value.counter.Some? ==>
      Counter.Reads(a.root.value.counter.value.text, |value|)
    ensures app.root.Some? ==> (var (v, w) := (app.root.value, a.root.value);
      && w.background == v.background && w.inputBackground == v.inputBackground
      && w.inputForeground == v.inputForeground
      && (v.counter.Some? ==> w.counter.value.colour == v.counter.value.colour))
  {
    match app.root
    case Some(v) => if v.counter.Some? then app.(root := Some(UpdateCharCount(v, value))) else app.(root := Some(v.(text := value)))
    case None => app
  }

  /** Runs the events in order; the first raised fault stops the application. */
  function Run(app: App, events: seq<Event>, withCounter: bool): Result<App, Fault>
    decreases |events|
  {
    if |events| == 0 then Ok(app)
    else
      var next :- match events[0]
        case Tick(mtime, file) => CheckConfigUpdate(app, mtime, file, withCounter)
        case Edit(value) => Ok(EditText(app, value));
      Run(next, events[1..], withCounter)
  }

  /** However ticks and edits interleave, the view keeps showing the loaded background. */
  lemma {:induction false} RunKeepsViewInSync(app: App, events: seq<Event>, withCounter: bool)
    requires Consistent(app, withCounter)
    ensures Run(app, events, withCounter).Ok? ==> Consistent(Run(app, events, withCounter).value, withCounter)
    decreases |events|
  {
    if |events| > 0 {
      match events[0]
      case Tick(mtime, file) =>
        var r := CheckConfigUpdate(app, mtime, file, withCounter);
        if r.Ok? { RunKeepsViewInSync(r.value, events[1..], withCounter); }
      case Edit(value) =>
        RunKeepsViewInSync(EditText(app, value), events[1..], withCounter);
    }
  }
}

=== FILE: fast.dfy ===
/**
 * fast.py: the plain editor with a recolour gate keyed on `last_bg_color`.
 * As written, the gate fires only when a colour is already on record, and
 * the record is only written inside the gate, so from the initial state it
 * never fires. `UpdateColorsAsWritten` keeps that behaviour;
 * `UpdateColors` is the gate as evidently intended (fire when no colour is
 * on record or it differs), and the ticks of this model use it.
 */
module Fast {
  import opened Results
  import opened Colour
  import Settings
  import Poll
  import Editor

  /** The editor state plus `last_bg_color`, absent until the gate first records one. */
  datatype App = App(editor: Editor.App, lastBg: Option<string>)

  /** Once built, the view shows the loaded background and the gate has recorded it. */
  predicate Current(app: App) {
    app.editor.root.Some? ==>
      app.lastBg == Some(app.editor.bg) && Editor.Shows(app.editor.root.value, app.editor.bg)
  }

  /** The body of the gate: repaint, recolour the text input, record the colour. */
  function Apply(app: App): (r: Result<App, Editor.Fault>)
    requires app.editor.root.Some?
    ensures r.Ok? <==> HexToRgb(app.editor.bg).Ok?
    ensures r.Err? ==> r.error == Editor.BadColour(HexToRgb(app.editor.bg).error)
    ensures r.Ok? ==> (Current(r.value) && r.value.editor.root.Some?
      && r.value.editor.(root := None) == app.editor.(root := None))
    ensures r.Ok? ==> Editor.SameContent(app.editor.root.value, r.value.editor.root.value)
  {
    var c :- Editor.Decode(app.editor.bg);
    match Editor.UpdateTextColor(Editor.Paint(app.editor.root.value, c), app.editor.bg, false)
    case Ok(w) => Ok(App(app.editor.(root := Some(w)), Some(app.editor.bg)))
    case Err(e) => Err(e)
  }

  /**
   * `update_colors` as written: nothing before `root` is set, and nothing
   * unless a colour is on record and differs from the loaded one.
   */
  function UpdateColorsAsWritten(app: App): (r: Result<App, Editor.Fault>)
    ensures app.editor.root.None? || app.lastBg.None? ==> r == Ok(app)
    ensures r.Ok? && r.value != app ==> app.lastBg.Some? && app.lastBg.value != app.editor.bg
    ensures r.Ok? && app.editor.root.Some? && app.lastBg.Some? && app.lastBg.value != app.editor.bg ==>
      Current(r.value)
  {
    if app.editor.root.None? then Ok(app)
    else if app.lastBg.Some? && app.lastBg.value != app.editor.bg then Apply(app)
    else Ok(app)
  }

  /**
   * `update_colors` with the gate corrected: once `root` is set, the view
   * ends up showing the loaded background and the record holds it.
   */
  function UpdateColors(app: App): (r: Result<App, Editor.Fault>)
    ensures app.editor.root.None? ==> r == Ok(app)
    ensures app.editor.root.Some? && app.lastBg == Some(app.editor.bg) ==> r == Ok(app)
    ensures app.editor.root.Some? && app.lastBg != Some(app.editor.bg) ==>
      (r.Ok? <==> HexToRgb(app.editor.bg).Ok?)
    ensures r.Ok? ==> r.value.editor.bg == app.editor.bg && r.value.editor.lastChecked == app.editor.lastChecked
    ensures r.Ok? && app.editor.root.Some? ==>
      r.value.editor.root.Some? && Editor.SameContent(app.editor.root.value, r.value.editor.root.value)
    ensures Current(app) && r.Ok? ==> Current(r.value)
    ensures r.Ok? && app.editor.root.Some? && app.lastBg != Some(app.editor.bg) ==> Current(r.value)
  {
    if app.editor.root.None? then Ok(app)
    else if app.lastBg != Some(app.editor.bg) then Apply(app)
    else Ok(app)
  }

  /** `build` as written: the widgets painted with the loaded background, then the as-written gate. */
  function BuildAsWritten(app: App): (r: Result<App, Editor.Fault>)
    requires app.lastBg.None?
    ensures r.Ok? <==> HexToRgb(app.editor.bg).Ok?
    ensures r.Ok? ==> (r.value.lastBg.None?
      && r.value.editor.root == Some(Editor.NewView(HexToRgb(app.editor.bg).value, false)))
  {
    var c :- Editor.Decode(app.editor.bg);
    UpdateColorsAsWritten(app.(editor := app.editor.(root := Some(Editor.NewView(c, false)))))
  }

  /** `build` with the corrected gate: the view shows the loaded background, text colour included. */
  function Build(app: App): (r: Result<App, Editor.Fault>)
    requires app.lastBg.None?
    ensures r.Ok? <==> HexToRgb(app.editor.bg).Ok?
    ensures r.Ok? ==> (r.value.editor.root.Some? && Current(r.value)
      && r.value.editor.root.value.text == Editor.InitialText)
    ensures r.Ok? ==> r.value.editor.bg == app.editor.bg && r.value.editor.lastChecked == app.editor.lastChecked
  {
    var c :- Editor.Decode(app.editor.bg);
    UpdateColors(app.(editor := app.editor.(root := Some(Editor.NewView(c, false)))))
  }

  /** `check_config_update`, recolouring through the as-written gate. */
  function CheckConfigUpdateAsWritten(app: App, mtime: int, file: Settings.Section): (r: Result<App, Editor.Fault>)
    ensures r.Ok? ==> r.value.editor.lastChecked == Some(mtime)
    ensures app.lastBg.None? ==> r.Ok? && r.value.lastBg.None? && r.value.editor.root == app.editor.root
  {
    var tick := Poll.Check(app.editor.lastChecked, mtime);
    if tick.reload then
      var loaded := app.(editor := Editor.LoadConfig(app.editor, file));
      var updated :- UpdateColorsAsWritten(loaded);
      Ok(updated.(editor := updated.editor.(lastChecked := Some(tick.recorded))))
    else
      Ok(app.(editor := app.editor.(lastChecked := Some(tick.recorded))))
  }

  /** `check_config_update`, recolouring through the corrected gate. */
  function CheckConfigUpdate(app: App, mtime: int, file: Settings.Section): (r: Result<App, Editor.Fault>)
    ensures r.Ok? ==> r.value.editor.lastChecked == Some(mtime)
    ensures !Poll.Check(app.editor.lastChecked, mtime).reload ==>
      r == Ok(app.(editor := app.editor.(lastChecked := Some(mtime))))
    ensures Poll.Check(app.editor.lastChecked, mtime).reload && r.Ok? ==>
      r.value.editor.bg == Settings.Get(file, Settings.BackgroundKey, Settings.DefaultBackground)
    ensures Current(app) && r.Ok? ==> Current(r.value)
    ensures r.Err? <==> (Poll.Check(app.editor.lastChecked, mtime).reload && app.editor.root.Some?
      && app.lastBg != Some(Settings.Get(file, Settings.BackgroundKey, Settings.DefaultBackground))
      && HexToRgb(Settings.Get(file, Settings.BackgroundKey, Settings.DefaultBackground)).Err?)
    ensures r.Ok? && app.editor.root.Some? ==>
      r.value.editor.root.Some? && Editor.SameContent(app.editor.root.value, r.value.editor.root.value)
  {
    var tick := Poll.Check(app.editor.lastChecked, mtime);
    if tick.reload then
      var loaded := app.(editor := Editor.LoadConfig(app.editor, file));
      var updated :- UpdateColors(loaded);
      Ok(updated.(editor := updated.editor.(lastChecked := Some(tick.recorded))))
    else
      Ok(app.(editor := app.editor.(lastChecked := Some(tick.recorded))))
  }

  function RunAsWritten(app: App, ticks: seq<(int, Settings.Section)>): Result<App, Editor.Fault>
    decreases |ticks|
  {
    if |ticks| == 0 then Ok(app)
    else
      var next :- CheckConfigUpdateAsWritten(app, ticks[0].0, ticks[0].1);
      RunAsWritten(next, ticks[1..])
  }

  function Run(app: App, ticks: seq<(int, Settings.Section)>): Result<App, Editor.Fault>
    decreases |ticks|
  {
    if |ticks| == 0 then Ok(app)
    else
      var next :- CheckConfigUpdate(app, ticks[0].0, ticks[0].1);
      Run(next, ticks[1..])
  }

  /**
   * As written, with no colour on record the gate never fires: however many
   * reloads happen, nothing is repainted, no colour is recorded and nothing
   * raises, not even for a malformed colour.
   */
  lemma {:induction false} GateNeverFires(app: App, ticks: seq<(int, Settings.Section)>)
    requires app.lastBg.None?
    ensures RunAsWritten(app, ticks).Ok?
    ensures RunAsWritten(app, ticks).value.lastBg.None?
    ensures RunAsWritten(app, ticks).value.editor.root == app.editor.root
    decreases |ticks|
  {
    if |ticks| > 0 {
      GateNeverFires(CheckConfigUpdateAsWritten(app, ticks[0].0, ticks[0].1).value, ticks[1..]);
    }
  }

  /**
   * A concrete run of the code as written: built on white, the file turns
   * black, and the view stays white.
   */
  lemma StaleBackgroundExample()
    ensures var white := App(Editor.App("#FFFFFF", None, None), None);
      var built := BuildAsWritten(white);
      && built.Ok?
      && var after := RunAsWritten(built.value, [(1, map[]), (2, map[Settings.BackgroundKey := "#000000"])]);
      && after.Ok? && after.value.editor.bg == "#000000"
      && after.value.editor.root.Some? && after.value.editor.root.value.background == Rgb(255, 255, 255)
  {
    WhiteSelectsBlack();
    var white := App(Editor.App("#FFFFFF", None, None), None);
    var built := BuildAsWritten(white);
    assert built.Ok? && built.value.lastBg.None? && built.value.editor.lastChecked.None?;
    assert built.value.editor.root == Some(Editor.NewView(Rgb(255, 255, 255), false));
    var black: Settings.Section := map[Settings.BackgroundKey := "#000000"];
    var first := CheckConfigUpdateAsWritten(built.value, 1, map[]);
    assert first.Ok? && first.value.editor.lastChecked == Some(1) && first.value.lastBg.None?;
    var second := CheckConfigUpdateAsWritten(first.value, 2, black);
    assert second.Ok? && second.value.editor.bg == "#000000";
    assert second.value.editor.root == built.value.editor.root;
    var ticks: seq<(int, Settings.Section)> := [(1, map[]), (2, black)];
    assert ticks[1..] == [(2, black)] && ticks[1..][1..] == [];
    assert RunAsWritten(second.value, ticks[1..][1..]) == Ok(second.value);
    assert RunAsWritten(first.value, ticks[1..]) == Ok(second.value);
    assert RunAsWritten(built.value, ticks) == Ok(second.value);
  }

  /** With the corrected gate every reload reaches the view: it always shows the loaded background. */
  lemma {:induction false} RunKeepsViewCurrent(app: App, ticks: seq<(int, Settings.Section)>)
    requires Current(app)
    ensures Run(app, ticks).Ok? ==> Current(Run(app, ticks).value)
    decreases |ticks|
  {
    if |ticks| > 0 {
      var r := CheckConfigUpdate(app, ticks[0].0, ticks[0].1);
      if r.Ok? { RunKeepsViewCurrent(r.value, ticks[1..]); }
    }
  }
}

=== FILE: fps.dfy ===
/**
 * fps.py: the counter editor with an FPS overlay for debug mode. The
 * `debug_mode` option decides, once, whether the FPS label is laid out
 * (in `build`) and whether its timer is scheduled (in `on_start`).
 */
module Fps {
  import opened Results
  import opened Colour
  import Settings
  import Poll
  import opened Editor

  /**
   * The application: the editor state, the loaded `debug_mode`, whether the
   * FPS label's anchor was added to the layout and whether `update_fps` is
   * scheduled.
   */
  datatype App = App(editor: Editor.App, debug: bool, fpsShown: bool, fpsTimer: bool)

  /** `load_config`: the background as in the other prototypes, and `debug_mode` off unless the file says otherwise. */
  function LoadConfig(app: App, file: Settings.Section): (r: Result<App, Fault>)
    ensures r.Ok? <==> Settings.GetBoolean(file, Settings.DebugKey, false).Ok?
    ensures r.Err? ==> r.error == BadSetting(Settings.NotABoolean(file[Settings.DebugKey]))
    ensures r.Ok? ==> (r.value.editor == Editor.LoadConfig(app.editor, file)
      && r.value.fpsShown == app.fpsShown && r.value.fpsTimer == app.fpsTimer)
    ensures Settings.DebugKey !in file ==> r.Ok? && !r.value.debug
    ensures r.Ok? && Settings.DebugKey in file ==>
      r.value.debug == Settings.ParseBoolean(file[Settings.DebugKey]).value
  {
    var e := Editor.LoadConfig(app.editor, file);
    match Settings.GetBoolean(file, Settings.DebugKey, false)
    case Ok(debug) => Ok(app.(editor := e, debug := debug))
    case Err(problem) => Err(BadSetting(problem))
  }

  /**
   * `on_start`: write the default file when there is none, load it, and
   * schedule the FPS timer only in debug mode.
   */
  function OnStart(app: App, file: Option<Settings.Section>): (r: Result<App, Fault>)
    ensures r.Ok? ==> (r.value.debug ==> r.value.fpsTimer)
    ensures r.Ok? && !app.fpsTimer ==> (r.value.fpsTimer <==> r.value.debug)
    ensures r.Ok? ==> r.value.fpsShown == app.fpsShown
    ensures file.None? ==> (r.Ok? && !r.value.debug && r.value.fpsTimer == app.fpsTimer
      && r.value.editor.bg == "#FFFFFF")
    ensures file.Some? ==> (r.Ok? <==> Settings.GetBoolean(file.value, Settings.DebugKey, false).Ok?)
    ensures file.Some? && r.Ok? ==> (Ok(r.value.debug) == Settings.GetBoolean(file.value, Settings.DebugKey, false)
      && r.value.editor.bg == Settings.Get(file.value, Settings.BackgroundKey, Settings.DefaultBackground))
    ensures r.Ok? ==> r.value.editor.root == app.editor.root && r.value.editor.lastChecked == app.editor.lastChecked
  {
    var loaded :- LoadConfig(app, Settings.StartSection(file, true));
    if loaded.debug then Ok(loaded.(fpsTimer := true)) else Ok(loaded)
  }

  /**
   * `build`: the counter editor's widgets, plus the FPS label's anchor when
   * `debug_mode` is on, then `update_colors`.
   */
  function Build(app: App): (r: Result<App, Fault>)
    ensures r.Ok? <==> HexToRgb(app.editor.bg).Ok?
    ensures r.Err? ==> r.error == BadColour(HexToRgb(app.editor.bg).error)
    ensures r.Ok? ==> (r.value.fpsShown <==> app.debug)
    ensures r.Ok? ==> (r.value.editor.root.Some? && Consistent(r.value.editor, true)
      && r.value.debug == app.debug && r.value.fpsTimer == app.fpsTimer)
    ensures r.Ok? ==> r.value.editor.bg == app.editor.bg && r.value.editor.lastChecked == app.editor.lastChecked
  {
    var c :- Decode(app.editor.bg);
    match UpdateColors(app.editor.(root := Some(NewView(c, true))), true)
    case Ok(coloured) => Ok(app.(editor := coloured, fpsShown := app.debug))
    case Err(e) => Err(e)
  }

  /**
   * `check_config_update` with its single combined condition. A reload
   * rereads `debug_mode` but neither lays out nor removes the FPS label, nor
   * schedules or cancels its timer.
   */
  function CheckConfigUpdate(app: App, mtime: int, file: Settings.Section): (r: Result<App, Fault>)
    ensures r.Ok? ==> r.value.editor.lastChecked == Some(mtime)
    ensures r.Ok? ==> r.value.fpsShown == app.fpsShown && r.value.fpsTimer == app.fpsTimer
    ensures !Poll.Check(app.editor.lastChecked, mtime).reload ==>
      r == Ok(app.(editor := app.editor.(lastChecked := Some(mtime))))
    ensures Poll.Check(app.editor.lastChecked, mtime).reload && r.Ok? ==>
      r.value.editor.bg == Settings.Get(file, Settings.BackgroundKey, Settings.DefaultBackground)
    ensures Consistent(app.editor, true) && r.Ok? ==> Consistent(r.value.editor, true)
    ensures r.Err? <==> (Poll.Check(app.editor.lastChecked, mtime).reload
      && (Settings.GetBoolean(file, Settings.DebugKey, false).Err?
        || (app.editor.root.Some?
          && HexToRgb(Settings.Get(file, Settings.BackgroundKey, Settings.DefaultBackground)).Err?)))
    ensures Poll.Check(app.editor.lastChecked, mtime).reload && r.Ok? ==>
      Ok(r.value.debug) == Settings.GetBoolean(file, Settings.DebugKey, false)
    ensures r.Ok? && app.editor.root.Some? ==>
      r.value.editor.root.Some? && SameContent(app.editor.root.value, r.value.editor.root.value)
  {
    var tick := Poll.CheckCombined(app.editor.lastChecked, mtime);
    if tick.reload then
      var loaded :- LoadConfig(app, file);
      var coloured :- UpdateColors(loaded.editor, true);
      Ok(loaded.(editor := coloured.(lastChecked := Some(tick.recorded))))
    else
      Ok(app.(editor := app.editor.(lastChecked := Some(tick.recorded))))
  }

  /** Runs poller ticks in order; the first raised fault stops the application. */
  function RunTicks(app: App, ticks: seq<(int, Settings.Section)>): Result<App, Fault>
    decreases |ticks|
  {
    if |ticks| == 0 then Ok(app)
    else
      var next :- CheckConfigUpdate(app, ticks[0].0, ticks[0].1);
      RunTicks(next, ticks[1..])
  }

  /**
   * Whatever later files say about `debug_mode`, the FPS overlay stays as
   * `build` and `on_start` left it: off for good when debug mode was off.
   */
  lemma {:induction false} OverlayFixedAfterStart(app: App, ticks: seq<(int, Settings.Section)>)
    ensures RunTicks(app, ticks).Ok? ==>
      RunTicks(app, ticks).value.fpsShown == app.fpsShown
      && RunTicks(app, ticks).value.fpsTimer == app.fpsTimer
    decreases |ticks|
  {
    if |ticks| > 0 {
      var r := CheckConfigUpdate(app, ticks[0].0, ticks[0].1);
      if r.Ok? { OverlayFixedAfterStart(r.value, ticks[1..]); }
    }
  }
}

=== FILE: hello.dfy ===
/**
 * hello.py: the plain editor. Recolouring touches the text input only; there
 * is no counter label.
 */
module Hello {
  import opened Results
  import opened Colour
  import Settings
  import opened Editor

  /**
   * `build`: the widgets painted with the loaded background, `update_colors`,
   * and then `update_text_color` once more.
   */
  function Build(app: App): (r: Result<App, Fault>)
    ensures r.Ok? <==> HexToRgb(app.bg).Ok?
    ensures r.Err? ==> r.error == BadColour(HexToRgb(app.bg).error)
    ensures r.Ok? ==> (r.value.root.Some? && Consistent(r.value, false)
      && r.value.bg == app.bg && r.value.lastChecked == app.lastChecked)
    ensures r.Ok? ==> r.value.root.value.text == InitialText && r.value.root.value.counter.None?
  {
    var c :- Decode(app.bg);
    match UpdateColors(app.(root := Some(NewView(c, false))), false)
    case Err(e) => Err(e)
    case Ok(coloured) =>
      match UpdateTextColor(coloured.root.value, coloured.bg, false)
      case Ok(v) => Ok(coloured.(root := Some(v)))
      case Err(e) => Err(e)
  }

  /** A file without `background_color` gives white, which decodes to full channels and selects black text. */
  lemma MissingKeySelectsBlack(app: App, file: Settings.Section)
    requires Settings.BackgroundKey !in file
    ensures LoadConfig(app, file).bg == "#FFFFFF"
    ensures HexToRgb(LoadConfig(app, file).bg) == Ok(Rgb(255, 255, 255))
    ensures TextColourFor(LoadConfig(app, file).bg) == Ok(Black)
  {
    WhiteSelectsBlack();
  }
}

=== FILE: perf.dfy ===
/**
 * perf.py: the counter editor tuned for speed. It has defaults from its
 * constructor, no `root` guard, a text colour chosen once and given to both
 * widgets, and an FPS-driven rule that hides the content on slow frames
 * unless performance mode is on.
 */
module Perf {
  import opened Results
  import opened Colour
  import Settings
  import Counter
  import opened Editor

  /** The editor widgets plus the opacities of the text input and of the bottom bar holding the counter. */
  datatype PerfView = PerfView(editor: View, inputOpacity: int, bottomOpacity: int)

  /** The application: loaded settings and, once built, the widgets. */
  datatype App = App(bg: string, debug: bool, performance: bool, root: Option<PerfView>)

  /** The bottom bar and the text input are equally visible. */
  predicate Uniform(v: PerfView) {
    v.inputOpacity == v.bottomOpacity
  }

  /** The constructor's defaults: white background, debug and performance mode off. */
  function Init(): (a: App)
    ensures a.bg == "#FFFFFF" && !a.debug && !a.performance && a.root.None?
    ensures TextColourFor(a.bg) == Ok(Black)
  {
    WhiteSelectsBlack();
    App.App(Settings.DefaultBackground, false, false, None)
  }

  /** `int(x, 16) / 255` for each channel string in turn, as the generator expression does. */
  function ScaleAll(parts: seq<string>): (r: Result<seq<real>, HexError>)
    ensures r.Ok? ==> |r.value| == |parts|
    decreases |parts|
  {
    if |parts| == 0 then Ok([])
    else
      var v :- ParseHex(parts[0]);
      var rest :- ScaleAll(parts[1..]);
      Ok([v as real / 255.0] + rest)
  }

  /** Three channel strings scale, one by one, to the components of the colour they name. */
  lemma ScaleThree(r: string, g: string, b: string)
    requires |r| == |g| == |b| == 2
    ensures ScaleAll([r, g, b]).Ok? <==> Channels(r, g, b).Ok?
    ensures ScaleAll([r, g, b]).Err? ==> ScaleAll([r, g, b]).error == Channels(r, g, b).error
    ensures ScaleAll([r, g, b]).Ok? ==>
      var k := Components(Channels(r, g, b).value); ScaleAll([r, g, b]).value == [k.0, k.1, k.2]
  {
    assert [b][1..] == [] && ScaleAll([]) == Ok([]);
    var last := ScaleAll([b]);
    assert last.Ok? <==> ParseHex(b).Ok?;
    assert last.Ok? ==> last.value == [ParseHex(b).value as real / 255.0];
    assert [g, b][1..] == [b];
    var tail := ScaleAll([g, b]);
    assert tail.Ok? <==> ParseHex(g).Ok? && last.Ok?;
    assert tail.Ok? ==> tail.value == [ParseHex(g).value as real / 255.0] + last.value;
    assert [r, g, b][1..] == [g, b];
  }

  /** perf.py's `hex_to_rgb`: the tuple built by a generator yields the same components as the explicit form. */
  function HexToComponents(colour: string): (r: Result<seq<real>, HexError>)
    ensures r.Ok? <==> HexToRgb(colour).Ok?
    ensures r.Err? ==> r.error == HexToRgb(colour).error
    ensures r.Ok? ==> var k := Components(HexToRgb(colour).value); r.value == [k.0, k.1, k.2]
  {
    var h := StripHashes(colour);
    if |h| == 6 then
      ScaleThree(h[0..2], h[2..4], h[4..6]);
      ScaleAll([h[0..2], h[2..4], h[4..6]])
    else if |h| == 3 then
      ScaleThree([h[0], h[0]], [h[1], h[1]], [h[2], h[2]]);
      ScaleAll([[h[0], h[0]], [h[1], h[1]], [h[2], h[2]]])
    else
      Err(InvalidFormat)
  }

  /**
   * `build`: the background and the text input painted from the loaded
   * colour, the counter with its placeholder, both fully opaque. Unlike the
   * other prototypes it does not recolour the text here.
   */
  function Build(app: App): (r: Result<App, Fault>)
    ensures r.Ok? <==> HexToRgb(app.bg).Ok?
    ensures r.Err? ==> r.error == BadColour(HexToRgb(app.bg).error)
    ensures r.Ok? ==> (r.value.root.Some? && Uniform(r.value.root.value)
      && r.value.root.value.inputOpacity == 1
      && r.value.root.value.editor.background == HexToRgb(app.bg).value
      && r.value.root.value.editor.inputBackground == HexToRgb(app.bg).value
      && r.value.root.value.editor.inputForeground.None?
      && r.value.root.value.editor.counter == Some(InitialCounter))
    ensures r.Ok? ==> r.value.(root := None) == app.(root := None)
  {
    var c :- Decode(app.bg);
    Ok(app.(root := Some(PerfView(NewView(c, true), 1, 1))))
  }

  /** `set_visibility`: both the text input and the bottom bar take opacity 1 when visible, 0 otherwise. */
  function SetVisibility(v: PerfView, visible: bool): (w: PerfView)
    ensures Uniform(w) && w.editor == v.editor
    ensures w.inputOpacity == 1 <==> visible
    ensures w.inputOpacity == 0 <==> !visible
  {
    var opacity := if visible then 1 else 0;
    v.(inputOpacity := opacity, bottomOpacity := opacity)
  }

  /**
   * `update_fps`'s visibility rule on a frame rate reading: below 10 frames
   * hides the content unless in performance mode, 10 or more shows it, and
   * a slow reading in performance mode changes nothing.
   */
  function UpdateFps(v: PerfView, performance: bool, fps: real): (w: PerfView)
    ensures w.editor == v.editor
    ensures fps < 10.0 && !performance ==> w.inputOpacity == 0 && Uniform(w)
    ensures fps >= 10.0 ==> w.inputOpacity == 1 && Uniform(w)
    ensures fps < 10.0 && performance ==> w == v
  {
    if fps < 10.0 && !performance then SetVisibility(v, false)
    else if fps >= 10.0 then SetVisibility(v, true)
    else v
  }

  /** The visibility after a sequence of frame rate readings. */
  function RunFps(v: PerfView, performance: bool, readings: seq<real>): PerfView
    decreases |readings|
  {
    if |readings| == 0 then v else RunFps(UpdateFps(v, performance, readings[0]), performance, readings[1..])
  }

  /** The text input and the bottom bar are never shown differently. */
  lemma {:induction false} VisibilityStaysUniform(v: PerfView, performance: bool, readings: seq<real>)
    requires Uniform(v)
    ensures Uniform(RunFps(v, performance, readings))
    decreases |readings|
  {
    if |readings| > 0 {
      VisibilityStaysUniform(UpdateFps(v, performance, readings[0]), performance, readings[1..]);
    }
  }

  /** In performance mode visible content is never hidden, however slow the frames. */
  lemma {:induction false} PerformanceModeNeverHides(v: PerfView, readings: seq<real>)
    requires v.inputOpacity == 1 && Uniform(v)
    ensures RunFps(v, true, readings).inputOpacity == 1 && Uniform(RunFps(v, true, readings))
    decreases |readings|
  {
    if |readings| > 0 {
      PerformanceModeNeverHides(UpdateFps(v, true, readings[0]), readings[1..]);
    }
  }

  /** Outside performance mode the last reading alone decides visibility. */
  lemma {:induction false} LastReadingDecides(v: PerfView, readings: seq<real>)
    requires |readings| > 0
    ensures RunFps(v, false, readings).inputOpacity == (if readings[|readings| - 1] < 10.0 then 0 else 1)
    ensures Uniform(RunFps(v, false, readings))
    decreases |readings|
  {
    if |readings| > 1 {
      LastReadingDecides(UpdateFps(v, false, readings[0]), readings[1..]);
      assert readings[1..][|readings| - 2] == readings[|readings| - 1];
    }
  }

  /** `update_colors`: repaint the background and the text input; no guard, the widgets must exist. */
  function UpdateColors(app: App): (r: Result<App, Fault>)
    requires app.root.Some?
    ensures r.Ok? <==> HexToRgb(app.bg).Ok?
    ensures r.Err? ==> r.error == BadColour(HexToRgb(app.bg).error)
    ensures r.Ok? ==> (r.value.root.Some?
      && r.value.root.value.editor.background == HexToRgb(app.bg).value
      && r.value.root.value.editor.inputBackground == HexToRgb(app.bg).value
      && r.value.root.value.editor.inputForeground == app.root.value.editor.inputForeground
      && r.value.root.value.editor.counter == app.root.value.editor.counter
      && r.value.root.value.editor.text == app.root.value.editor.text
      && r.value.root.value.inputOpacity == app.root.value.inputOpacity
      && r.value.root.value.bottomOpacity == app.root.value.bottomOpacity)
    ensures r.Ok? ==> r.value.(root := app.root) == app
  {
    var c :- Decode(app.bg);
    Ok(app.(root := Some(app.root.value.(editor := Paint(app.root.value.editor, c)))))
  }

  /**
   * `update_text_color`: one colour is chosen and assigned to the text input
   * and the counter label; the result is the two-branch form of tab.py.
   */
  function UpdateTextColor(app: App): (r: Result<App, Fault>)
    requires app.root.Some?
    ensures r.Ok? <==> HexToRgb(app.bg).Ok?
    ensures r.Ok? ==> (r.value.root.Some?
      && Editor.UpdateTextColor(app.root.value.editor, app.bg, true) == Ok(r.value.root.value.editor))
    ensures r.Ok? && app.root.value.editor.counter.Some? ==> CounterMatches(r.value.root.value.editor)
    ensures r.Ok? ==> (r.value.(root := app.root) == app
      && r.value.root.value.inputOpacity == app.root.value.inputOpacity
      && r.value.root.value.bottomOpacity == app.root.value.bottomOpacity)
  {
    var c :- Decode(app.bg);
    var colour := if Brightness(c) < 0.5 then White else Black;
    Ok(app.(root := Some(app.root.value.(editor := SetTextColour(app.root.value.editor, colour, true)))))
  }

  /**
   * One pass of `load_config_in_background`: read the three settings, then
   * run the scheduled `update_colors` and `update_text_color`.
   */
  function Reload(app: App, file: Settings.Section): (r: Result<App, Fault>)
    requires app.root.Some?
    ensures r.Ok? ==> (r.value.bg == Settings.Get(file, Settings.BackgroundKey, Settings.DefaultBackground)
      && r.value.root.Some? && Shows(r.value.root.value.editor, r.value.bg)
      && r.value.root.value.inputOpacity == app.root.value.inputOpacity
      && r.value.root.value.bottomOpacity == app.root.value.bottomOpacity)
    ensures r.Ok? && Settings.PerformanceKey !in file ==> !r.value.performance
    ensures r.Ok? && Settings.DebugKey !in file ==> !r.value.debug
    ensures Settings.GetBoolean(file, Settings.DebugKey, false).Err? ==> r.Err?
    ensures Settings.GetBoolean(file, Settings.PerformanceKey, false).Err? ==> r.Err?
    ensures r.Ok? ==> SameContent(app.root.value.editor, r.value.root.value.editor)
    ensures r.Ok? && app.root.value.editor.counter.Some? ==> CounterMatches(r.value.root.value.editor)
    ensures r.Ok? <==> (Settings.GetBoolean(file, Settings.DebugKey, false).Ok?
      && Settings.GetBoolean(file, Settings.PerformanceKey, false).Ok?
      && HexToRgb(Settings.Get(file, Settings.BackgroundKey, Settings.DefaultBackground)).Ok?)
    ensures r.Ok? ==> (Ok(r.value.performance) == Settings.GetBoolean(file, Settings.PerformanceKey, false)
      && Ok(r.value.debug) == Settings.GetBoolean(file, Settings.DebugKey, false))
  {
    var bg := Settings.Get(file, Settings.BackgroundKey, Settings.DefaultBackground);
    match Settings.GetBoolean(file, Settings.DebugKey, false)
    case Err(problem) => Err(BadSetting(problem))
    case Ok(debug) =>
      match Settings.GetBoolean(file, Settings.PerformanceKey, false)
      case Err(problem) => Err(BadSetting(problem))
      case Ok(performance) =>
        var loaded := app.(bg := bg, debug := debug, performance := performance);
        var painted :- UpdateColors(loaded);
        UpdateTextColor(painted)
  }

  /** `update_char_count` on the counter of the built widgets. */
  function UpdateCharCount(app: App, value: string): (r: App)
    requires app.root.Some? && app.root.value.editor.counter.Some?
    ensures r.root.Some? && r.root.value.editor.text == value
    ensures r.root.value.editor.counter.Some?
    ensures Counter.Reads(r.root.value.editor.counter.value.text, |value|)
    ensures r.(root := app.root) == app
    ensures r.root.value.inputOpacity == app.root.value.inputOpacity
    ensures r.root.value.bottomOpacity == app.root.value.bottomOpacity
    ensures var (v, w) := (app.root.value.editor, r.root.value.editor);
      && w.background == v.background && w.inputBackground == v.inputBackground
      && w.inputForeground == v.inputForeground && w.counter.value.colour == v.counter.value.colour
  {
    app.(root := Some(app.root.value.(editor := Editor.UpdateCharCount(app.root.value.editor, value))))
  }
}

=== FILE: poll.dfy ===
/**
 * `check_config_update`: a one-variable state machine over the last seen
 * modification time of the configuration file. The time is an integer
 * here; only its order matters.
 */
module Poll {
  import opened Results

  /** One tick: whether the configuration is reloaded, and the time recorded afterwards. */
  datatype Tick = Tick(reload: bool, recorded: int)

  /**
   * The nested form of tab.py, hello.py and fast.py: a tick with no record
   * only records; later ticks reload when the time is strictly newer.
   */
  function Check(last: Option<int>, mtime: int): (t: Tick)
    ensures t.recorded == mtime
    ensures last.None? ==> !t.reload
    ensures last.Some? ==> (t.reload <==> mtime > last.value)
  {
    var reload := match last
      case None => false
      case Some(previous) => mtime > previous;
    Tick(reload, mtime)
  }

  /** The single combined condition of fps.py; it decides exactly as `Check`. */
  function CheckCombined(last: Option<int>, mtime: int): (t: Tick)
    ensures t == Check(last, mtime)
  {
    Tick(last.Some? && mtime > last.value, mtime)
  }

  /** The reload decisions of a sequence of ticks reading the given times. */
  function Reloads(last: Option<int>, mtimes: seq<int>): (flags: seq<bool>)
    ensures |flags| == |mtimes|
    decreases |mtimes|
  {
    if |mtimes| == 0 then []
    else
      var tick := Check(last, mtimes[0]);
      [tick.reload] + Reloads(Some(tick.recorded), mtimes[1..])
  }

  /** The time on record after a sequence of ticks. */
  function Recorded(last: Option<int>, mtimes: seq<int>): (r: Option<int>)
    ensures |mtimes| > 0 ==> r == Some(mtimes[|mtimes| - 1])
    ensures |mtimes| == 0 ==> r == last
    decreases |mtimes|
  {
    if |mtimes| == 0 then last else Recorded(Some(Check(last, mtimes[0]).recorded), mtimes[1..])
  }

  /**
   * Tick i reloads exactly when its time is strictly newer than the time
   * read by tick i-1; the first tick compares against the initial record.
   */
  lemma {:induction false} ReloadsOnStrictIncrease(last: Option<int>, mtimes: seq<int>, i: nat)
    requires i < |mtimes|
    ensures Reloads(last, mtimes)[i] <==>
      if i == 0 then last.Some? && mtimes[0] > last.value else mtimes[i] > mtimes[i - 1]
    decreases i
  {
    if i > 0 {
      ReloadsOnStrictIncrease(Some(mtimes[0]), mtimes[1..], i - 1);
      if i > 1 {
        assert mtimes[1..][i - 2] == mtimes[i - 1];
      }
    }
  }

  /** From the initial state the first tick never reloads, and an unchanged file never does. */
  lemma {:induction false} UnchangedFileNeverReloads(mtimes: seq<int>, i: nat)
    requires i < |mtimes|
    requires forall j :: 0 < j < |mtimes| ==> mtimes[j] <= mtimes[j - 1]
    ensures !Reloads(None, mtimes)[i]
  {
    ReloadsOnStrictIncrease(None, mtimes, i);
  }
}

=== FILE: results.dfy ===
/** Failure-compatible wrappers shared by every module of the model. */
module Results {

  /** A value that may be absent, as a Python attribute that `hasattr` may not find. */
  datatype Option<+T> = None | Some(value: T)

  /** The outcome of an operation that may raise: `Err` carries the exception. */
  datatype Result<+T, +E> = Ok(value: T) | Err(error: E) {

    predicate IsFailure() {
      Err?
    }

    function PropagateFailure<U>(): Result<U, E>
      requires Err?
    {
      Err(error)
    }

    function Extract(): T
      requires Ok?
    {
      value
    }
  }
}

=== FILE: settings.dfy ===
/**
 * The configuration reads the prototypes make through configparser:
 * `get` and `getboolean` on the `[Settings]` section, always with a
 * fallback, and the default file `create_default_config` writes.
 */
module Settings {
  import opened Results

  /**
   * The `[Settings]` section after the file is read: option name to value.
   * A missing section reads like one without the option, because every
   * read passes a fallback.
   */
  type Section = map<string, string>

  const BackgroundKey := "background_color"
  const DebugKey := "debug_mode"
  const PerformanceKey := "performance_mode"
  const DefaultBackground := "#FFFFFF"

  /** `getboolean` raises `ValueError("Not a boolean: ...")` on any other word. */
  datatype SettingsError = NotABoolean(value: string)

  /** `config.get('Settings', key, fallback=...)`. */
  function Get(s: Section, key: string, fallback: string): (v: string)
    ensures key in s ==> v == s[key]
    ensures key !in s ==> v == fallback
  {
    if key in s then s[key] else fallback
  }

  function LowerChar(c: char): char {
    if 'A' <= c <= 'Z' then (c as int - 'A' as int + 'a' as int) as char else c
  }

  /** `str.lower()` on ASCII letters. */
  function Lower(s: string): (t: string)
    ensures |t| == |s| && forall i :: 0 <= i < |s| ==> t[i] == LowerChar(s[i])
  {
    seq(|s|, i requires 0 <= i < |s| => LowerChar(s[i]))
  }

  /** configparser's `BOOLEAN_STATES` table, looked up with the lower-cased word. */
  function ParseBoolean(word: string): (b: Option<bool>)
    ensures b == Some(true) <==> Lower(word) in {"1", "yes", "true", "on"}
    ensures b == Some(false) <==> Lower(word) in {"0", "no", "false", "off"}
  {
    var w := Lower(word);
    if w in {"1", "yes", "true", "on"} then Some(true)
    else if w in {"0", "no", "false", "off"} then Some(false)
    else None
  }

  /**
   * `config.getboolean('Settings', key, fallback=...)`: the fallback only
   * covers a missing option; a present value that is not a boolean word raises.
   */
  function GetBoolean(s: Section, key: string, fallback: bool): (r: Result<bool, SettingsError>)
    ensures key !in s ==> r == Ok(fallback)
    ensures key in s ==> (r.Ok? <==> ParseBoolean(s[key]).Some?)
    ensures key in s && r.Ok? ==> r.value == ParseBoolean(s[key]).value
    ensures r.Err? ==> r == Err(NotABoolean(s[key]))
  {
    if key !in s then Ok(fallback)
    else match ParseBoolean(s[key])
      case Some(b) => Ok(b)
      case None => Err(NotABoolean(s[key]))
  }

  /**
   * Boolean words are read without regard to the case of their letters: a
   * word and its lower-case form parse alike, so "TRUE" reads as true; only
   * the word a failure reports keeps its own spelling.
   */
  lemma GetBooleanIgnoresCase(s: Section, key: string, word: string, fallback: bool)
    ensures ParseBoolean(word) == ParseBoolean(Lower(word))
    ensures GetBoolean(s[key := word], key, fallback).Ok? <==> GetBoolean(s[key := Lower(word)], key, fallback).Ok?
    ensures GetBoolean(s[key := word], key, fallback).Ok? ==>
      GetBoolean(s[key := word], key, fallback).value == GetBoolean(s[key := Lower(word)], key, fallback).value
    ensures GetBoolean(s[key := word], key, fallback).Err? ==> GetBoolean(s[key := word], key, fallback).error == NotABoolean(word)
    ensures GetBoolean(s[key := "TRUE"], key, fallback) == Ok(true)
  {
    assert Lower(Lower(word)) == Lower(word);
    assert Lower("TRUE") == "true";
  }

  /**
   * The section `create_default_config` writes: a white background, and in
   * the FPS prototype also `debug_mode = False`.
   */
  function DefaultSection(withDebug: bool): (s: Section)
    ensures Get(s, BackgroundKey, "") == DefaultBackground
    ensures withDebug ==> GetBoolean(s, DebugKey, true) == Ok(false)
    ensures !withDebug ==> DebugKey !in s
    ensures PerformanceKey !in s
  {
    if withDebug then
      assert Lower("False") == "false";
      map[BackgroundKey := DefaultBackground, DebugKey := "False"]
    else
      map[BackgroundKey := DefaultBackground]
  }

  /**
   * What `on_start` reads: the file as it is when it exists, otherwise the
   * default that `create_default_config` has just written.
   */
  function StartSection(file: Option<Section>, withDebug: bool): (s: Section)
    ensures file.Some? ==> s == file.value
    ensures file.None? ==> Get(s, BackgroundKey, "") == DefaultBackground
  {
    match file
    case Some(existing) => existing
    case None => DefaultSection(withDebug)
  }
}

=== FILE: tab.dfy ===
/**
 * tab.py: the editor with a character counter under the text input. Its
 * recolouring is `Editor.UpdateColors` with the counter label included.
 */
module Tab {
  import opened Results
  import opened Colour
  import Counter
  import opened Editor

  /**
   * `build`: the widgets painted with the loaded background, then recoloured.
   * The counter keeps its placeholder "Characters: 0" although the text is
   * "Hello world", until the first edit.
   */
  function Build(app: App): (r: Result<App, Fault>)
    ensures r.Ok? <==> HexToRgb(app.bg).Ok?
    ensures r.Err? ==> r.error == BadColour(HexToRgb(app.bg).error)
    ensures r.Ok? ==> (r.value.root.Some? && Consistent(r.value, true)
      && r.value.bg == app.bg && r.value.lastChecked == app.lastChecked)
    ensures r.Ok? ==> (r.value.root.value.text == InitialText && r.value.root.value.counter.Some?
      && r.value.root.value.counter.value.text == "Characters: 0"
      && Counter.Reads(r.value.root.value.counter.value.text, 0))
  {
    var c :- Decode(app.bg);
    Counter.PlaceholderShowsZero();
    UpdateColors(app.(root := Some(NewView(c, true))), true)
  }
}
